=== FILE: README.md ===
# citest TestRunner lifecycle, modelled in Dafny

This project models the process-wide lifecycle of citest's `TestRunner`, the
coordinator in `citest/base/test_runner.py`. The runner wraps a delegate
unittest runner. It registers itself as the global runner. It keeps a
process-wide cache of shared scenario instances, resolves bindings, picks or
creates the global reporting journal, runs the suite with guaranteed
cleanup, tears the journal down and returns the number of failures plus
errors as the exit code.

The model is a functional state machine. `RunnerState.World` is one
immutable record holding:
- the global-runner slot;
- the runner objects, each with its delegate, options, bindings, binding
  overrides, parser hooks and journal reference;
- the shared-scenario cache, keyed by class;
- the global-journal slot;
- an identity allocator (`nextId`) standing in for Python object identity;
- a trace of the observable steps (construction, prepare, journal creation
  and termination, delegate run, early-termination notice, cleanup, report
  generation, journal store).

Each transition is a pure function from a world and its inputs to a
successor world and a `Result` (a value, or the exception raised).
Everything the code gets from outside comes in as a parameter:
- the parsed command line and the bindings derived from it;
- whether logging configuration failed;
- how the loader lists a class's tests;
- what the delegate did;
- the report generator's return code.

Files:
- `state.dfy` (module `RunnerState`): identities, errors, runner and world records, the `Valid` invariant.
- `registry.dfy` (module `Registry`): construction (last writer wins), `global_runner`, the setters, `get_shared_data`.
- `suite.dfy` (module `SuiteBuilder`): `build_suite`, as a function and as its own loop.
- `coordinator.dfy` (module `Coordinator`): `start_logging`'s journal choice, `_prepare`, `run`, `_do_main`, `main`, `finish_report_journal`, `report`.

The source is Python 2 (print statement, `0600` literal). Two of its
behaviours follow from Python 2 semantics; see "## Findings".

Some behaviours of the code that the model keeps:
- `_do_main` compares the global journal with its own journal itself
  (test_runner.py:225) and unsets the global journal only when they match
  (:226), and then terminates its journal (:227). The model records the
  unset and the termination in one step, so it does not represent their
  order.
- `_do_main` terminates its journal but does not clear the runner's journal
  reference (:222-227), so a later `finish_report_journal` terminates it
  again.
- `_prepare` merges the parsed bindings into the existing ones with
  `dict.update` (:379). It does not replace them.
- `report` raises a plain string (:339), not an exception object (a finding below).
- An exception from `run` (:220) leaves `_do_main` before the teardown at
  :222-244. The journal is then neither unset nor terminated, and no report
  is generated. The cleanup hook `_cleanup` (:383-386) does nothing, so the
  runner's journal stays the global journal.

## Model

| member | source | states |
|---|---|---|
| RunnerState.Initial | citest/base/test_runner.py:101-102 | before any runner exists, the global-runner slot is empty and the shared-scenario cache is empty |
| Registry.NewRunner | citest/base/test_runner.py:248-255 | a new runner always takes the global slot (last writer wins). It starts with no options, empty bindings and overrides, no parser hooks and no journal, with the injected delegate or else the text runner. Existing runners, the cache, the global journal and the trace are unchanged |
| Registry.GlobalRunner | citest/base/test_runner.py:136-144 | returns the registered runner exactly when one exists; otherwise raises "not yet instantiated" |
| Registry.SetDefaultBindingOverrides | citest/base/test_runner.py:191-197 | stores the overrides, with None read as the empty mapping; only this runner's overrides change |
| Registry.SetParserInits | citest/base/test_runner.py:199-205 | stores the parser hooks, with None read as the empty list; only this runner's hooks change |
| Registry.GetSharedData | citest/base/test_runner.py:146-163 | a hit returns the stored instance and changes nothing. A miss with no runner raises and changes nothing. Otherwise a miss builds one new, distinct instance from the global runner's current bindings, stores it under the class, leaves every other entry alone and records exactly one construction |
| Registry.ConstructedAtMostOnce | citest/base/test_runner.py:158-163 | over any sequence of requests, a class's constructor runs exactly once if the class was uncached, requested, and a runner exists, and never otherwise |
| Registry.SharedDataIdentity | citest/base/test_runner.py:158-163 | a second request for the same class returns the identical instance and changes nothing |
| Registry.DistinctClassesDistinctInstances | citest/base/test_runner.py:158-161 | two different classes get instances of different identity |
| Registry.LastWriterWins | citest/base/test_runner.py:248-249 | of two runners constructed in turn, the second holds the global slot; the first still exists, unchanged |
| SuiteBuilder.BuildSuite | citest/base/test_runner.py:348-365 | raises exactly when the class list is None or empty; otherwise the suite is the classes' tests concatenated in list order |
| SuiteBuilder.BuildSuiteByLoop | citest/base/test_runner.py:362-365 | the loop of `build_suite`, adding each class's tests in turn, computes the same suite or error as `BuildSuite` |
| SuiteBuilder.FlattenAppend | citest/base/test_runner.py:363-364 | the suite of a concatenated class list is the concatenation of the two suites |
| SuiteBuilder.FlattenBlock | citest/base/test_runner.py:363-364 | each listed class contributes one contiguous block holding exactly its loaded tests, after the blocks of earlier classes and before those of later ones |
| SuiteBuilder.FlattenMembers | citest/base/test_runner.py:363-364 | a test is in the suite exactly when some listed class loads it |
| SuiteBuilder.FlattenLength | citest/base/test_runner.py:362-365 | the suite's size is the sum of the classes' test counts, with nothing deduplicated |
| Coordinator.StartLoggingPathExample | citest/base/test_runner.py:322-328 | with LOG_DIR `/tmp/x`, LOG_FILEBASE `run1` and no global journal, `start_logging` creates the journal at `/tmp/x/run1.journal` and makes it global |
| Coordinator.StartLogging | citest/base/test_runner.py:305-328 | a failed logging configuration, or a missing LOG_DIR or LOG_FILEBASE, raises with nothing changed. Otherwise an existing global journal is adopted and nothing else changes. With no global journal, a new journal at LOG_DIR/LOG_FILEBASE.journal is created, becomes global, and is held by this runner |
| Coordinator.Prepare | citest/base/test_runner.py:367-381 | records the options and merges the parsed bindings over the old ones (parsed values win). The Prepared step comes first. It fails exactly when the logging setup failed or the merged bindings lack LOG_DIR or LOG_FILEBASE, with that error. On success the runner holds the global journal: an existing one is kept with no further step, otherwise a new one, distinct from every runner's, is created at the merged bindings' journal path. On failure its journal and the global slot are unchanged |
| Coordinator.Run | citest/base/test_runner.py:257-275 | after a successful preparation exactly two steps follow, or three when the delegate raised: the delegate runs once, first, and cleanup runs once, last, on both paths. The notice appears exactly when the delegate raised. A raise propagates with no result. A preparation failure runs neither the delegate nor cleanup |
| Coordinator.RunAsWritten | citest/base/test_runner.py:268-273 | as written, the notice appears exactly when an earlier handled exception is visible to `sys.exc_info()`, whatever the delegate did |
| Coordinator.RunNoticeDiscrepancy | citest/base/test_runner.py:271-272 | a raising delegate with no earlier handled exception gets no notice as written but gets one from `Run`. A delegate that returned after an earlier handled exception gets a notice only as written |
| Coordinator.Teardown | citest/base/test_runner.py:222-244 | with no journal nothing happens. Otherwise the global journal is cleared only if it is this runner's (a different one stays registered). The runner's journal is terminated either way, then report generation is requested at the journal path. Its return code is only recorded |
| Coordinator.DoMain | citest/base/test_runner.py:207-246 | an empty or missing class list raises with the world unchanged. A returned exit code is always the delegate's failure count plus error count. A raising delegate propagates. Runners' setup, the global runner and the cache are untouched |
| Coordinator.DoMainRunsBuiltSuite | citest/base/test_runner.py:214-220 | once preparation succeeded, the delegate's step comes right after the preparing steps and is handed exactly the suite `build_suite` produced from the class list |
| Coordinator.DoMainRaisedSkipsTeardown | citest/base/test_runner.py:220-227 | a raising delegate leaves `_do_main` in the state `run` left: no journal is terminated and no report is requested; after a successful preparation the runner's journal is still the global journal |
| Coordinator.DoMainPrepareFailurePropagates | citest/base/test_runner.py:220 | a failed preparation (logging setup, or a missing LOG_DIR or LOG_FILEBASE) propagates out of `_do_main` whatever the delegate would have done: its error, the state preparation left, no delegate step, no termination, and neither the runner's nor the global journal changed |
| Coordinator.DoMainPreparesThenRuns | citest/base/test_runner.py:214-220 | in a successful `_do_main` the first step prepares this runner, and the delegate is later handed the suite of the class list |
| Coordinator.DoMainIgnoresRetcode | citest/base/test_runner.py:239-246 | the result of `_do_main` does not depend on the report generator's return code |
| Coordinator.DoMainSuccess | citest/base/test_runner.py:222-246 | a successful run returns failures plus errors and leaves no global journal. After the steps of `run`, exactly two steps follow: the runner's journal is terminated once, then report generation is requested once for the path `start_logging` uses |
| Coordinator.DoMainFailsIff | citest/base/test_runner.py:207-246 | `_do_main` raises exactly when the class list is missing or empty, the logging setup failed, the merged bindings lack LOG_DIR or LOG_FILEBASE, or the delegate raised; otherwise it returns |
| Coordinator.DoMainExitCodeExample | citest/base/test_runner.py:246 | a successful `_do_main` whose delegate reports two failures and one error returns 3 |
| Coordinator.DoMainEmptyFailsEarly | citest/base/test_runner.py:213-220 | with no test classes, `_do_main` raises before any preparing, logging or journal step, and the world is unchanged |
| Coordinator.Main | citest/base/test_runner.py:165-189 | a new runner holds the global slot with the given overrides and parser hooks. An empty class list fails with no step recorded and the global journal untouched. A returned exit code is failures plus errors |
| Coordinator.MainSuccess | citest/base/test_runner.py:184-189 | with a non-empty class list, no logging failure, parsed bindings holding LOG_DIR and LOG_FILEBASE and a delegate that returns, `main` returns failures plus errors; its first step prepares the runner it constructed (now the global runner), and that runner's delegate is handed the suite of the class list |
| Coordinator.MainFailsIff | citest/base/test_runner.py:184-189 | `main` raises exactly when the class list is missing or empty, the logging setup failed, the parsed bindings lack LOG_DIR or LOG_FILEBASE (the new runner has none of its own), or the delegate raised |
| Coordinator.FinishReportJournal | citest/base/test_runner.py:341-346 | with no journal nothing changes. Otherwise the journal is terminated and this runner's reference cleared, and nothing else changes, the global slot included |
| Coordinator.FinishReportJournalIdempotent | citest/base/test_runner.py:341-346 | a second `finish_report_journal` does nothing |
| Coordinator.Report | citest/base/test_runner.py:330-339 | an object without the snapshot capability is rejected, naming it. Otherwise it is stored in this runner's journal, or the call fails when there is none. Nothing else changes |
| Coordinator.ReportAfterFinish | citest/base/test_runner.py:336-346 | after `finish_report_journal`, reporting a snapshotable object fails for want of a journal |
| Coordinator.ReportAsWritten | citest/base/test_runner.py:336-339 | as written, rejecting a non-snapshotable object raises a TypeError (a string was raised); snapshotable objects behave as in `Report` |
| Coordinator.ReportRaiseDiscrepancy | citest/base/test_runner.py:339 | for every non-snapshotable object, the error raised as written differs from the intended one |

## Left out

- Argument parsing (`initArgumentParser`, the parser hooks' calls, `parse_args`, `args_util.parser_args_to_bindings`): the parsed namespace and its bindings are inputs to `Prepare`. The stored overrides and hooks are not fed into parsing, and the `--log_dir`/`--log_filebase`/`--log_config` defaults are not modelled. Failures of the parsing step of `_prepare` (:374-379) are not modelled either: `parse_args` exiting on a bad or missing argument, or a parser hook raising, for example on a duplicate flag. In the model `_prepare` fails only in `start_logging`.
- Logging configuration (reading `--log_config`, `$KEY` substitution by `args_util.replace`, `ast.literal_eval`, `logging.config.dictConfig`, `os.chmod` of the log file): one optional failure reason stands for all of them. `args_util` is not part of this model.
- The journal module's internals (`get_global_journal`, `new_global_journal_with_path`, `unset_global_journal`, `Journal.store`, `Journal.terminate`): journals are opaque identities, and creation, termination and storing are trace events. A failure to open the journal file, the journal's own terminated state and `store` after `terminate` are not modelled.
- Instance construction in `get_shared_data`: the constructor is total and side-effect free. The model records the bindings' contents when the constructor is called; the source passes the bindings dict by reference, so later changes to that dict are visible to a constructor that kept it.
- What tests do while the delegate runs (calling `get_shared_data` or `report`, changing the global journal): the delegate is opaque and only its outcome is an input. Hence the "different global journal" case of the teardown is stated on `Teardown`, not reached through `DoMain`.
- The report generator subprocess and the text printed or logged (separator line, "Wrote ... .html", "Could not write ..."): only the requested path and whether the return code was zero are recorded.
- The `options`, `bindings` and `default_binding_overrides` properties are plain field reads of the runner record.
- `unittest.TestLoader` ordering and `TextTestRunner`: a class's test list is an input function. The disabled method sort has no effect in the model.
- StartLogging: assumes that `logging.config.dictConfig` (test_runner.py:317) leaves the global-journal slot alone, so from an empty slot `start_logging` always creates the journal itself (:323-328). The default configuration (:64-68) installs a `citest.base.JournalLogHandler` with path `$LOG_DIR/$LOG_FILEBASE.journal`, whose code is not part of this model. If that handler starts the global journal, :322 adopts it instead (the "# force start" at :324 is then not reached). With a custom configuration whose journal handler uses another path, `_do_main` still reports on the path of :229-231, not on the adopted journal's path.
- DoMain: runs the intended `Run`, not `RunAsWritten`. So when the delegate raises, its trace carries the early-termination notice even if no exception was handled earlier. The code as written (:271-272) prints no notice in that case (see "## Findings"). The as-written notice is stated only on `RunAsWritten`.
- Main: calls `DoMain`, so it too follows the intended notice of `Run` rather than the as-written one.
- `os.path.join` is modelled as two-component POSIX join.
- A journal object is assumed truthy in `if self.__journal:`, and journal equality is identity.

## Findings

| source | as written | input that shows it | evidently intended | confidence | as-written member | corrected member |
|---|---|---|---|---|---|---|
| citest/base/test_runner.py:271-272 | the notice is printed when `sys.exc_info()` reports an exception, but under CPython 2 a `finally` clause does not see the exception in flight; it sees only one handled earlier in the calling frames | the delegate raises and no exception was handled earlier: no notice. Or the delegate returns after the caller handled an exception: a spurious notice | print the notice exactly when the delegate raised | medium (CPython 2 `finally` semantics), not executed | Coordinator.RunAsWritten, Coordinator.RunNoticeDiscrepancy | Coordinator.Run |
| citest/base/test_runner.py:339 | a non-snapshotable object is rejected by `raise` of a formatted string, which Python 2.6 and later refuse with a TypeError, so the message naming the object is lost | any object that is not a `JsonSnapshotable` | raise an exception that carries the message | high, not executed | Coordinator.ReportAsWritten, Coordinator.ReportRaiseDiscrepancy | Coordinator.Report |

=== FILE: coordinator.dfy ===
/** The coordinator's run lifecycle: preparing bindings and the journal,
    running the delegate with guaranteed cleanup, the journal teardown and
    exit code of the main entry point, and the report hooks.

    Parsing the command line, configuring logging and running the tests are
    outside the model; their results come in as parameters:
    - `options`, `parsed`: the parsed namespace and the bindings derived
      from it;
    - `setupFailure`: why reading, substituting, evaluating or applying the
      logging configuration (or restricting the log file) failed, if it did;
    - `outcome`: what the delegate runner did;
    - `retcode`: the report generator's exit status. */
module Coordinator {
  import opened RunnerState
  import opened Registry
  import opened SuiteBuilder

  /** What the delegate runner did with the suite. */
  datatype Outcome = Returned(result: TestResult) | Raised(exception: string)

  /** Two-component POSIX path join: an absolute second part wins, and a
      separator is added only when the first part needs one. */
  function JoinPath(dir: string, name: string): string
  {
    if |name| > 0 && name[0] == '/' then name
    else if |dir| == 0 || dir[|dir| - 1] == '/' then dir + name
    else dir + "/" + name
  }

  predicate HasLogKeys(b: Bindings)
  {
    "LOG_DIR" in b && "LOG_FILEBASE" in b
  }

  /** The first of the two log bindings a lookup would fail on. */
  function MissingLogKey(b: Bindings): string
  {
    if "LOG_DIR" !in b then "LOG_DIR" else "LOG_FILEBASE"
  }

  /** `LOG_DIR` joined with `LOG_FILEBASE` plus the `.journal` suffix. */
  function JournalPath(b: Bindings): string
    requires HasLogKeys(b)
  {
    JoinPath(b["LOG_DIR"], b["LOG_FILEBASE"] + ".journal")
  }

  /** The journal choice of `start_logging`, once the logging configuration
      is in place. An existing global journal is adopted and nothing else
      changes; otherwise a new journal at the bindings' journal path is
      created and becomes the global journal. A failed configuration, or a
      missing `LOG_DIR`/`LOG_FILEBASE`, raises with nothing changed. */
  function StartLogging(w: World, r: RunnerId, setupFailure: Option<string>): (s: Step<()>)
    requires Valid(w) && r in w.runners
    ensures Valid(s.world)
    ensures s.world.runners.Keys == w.runners.Keys
    ensures s.world.runners == w.runners[r := w.runners[r].(journal := s.world.runners[r].journal)]
    ensures s.world.scenarios == w.scenarios && s.world.globalRunner == w.globalRunner
    ensures |w.trace| <= |s.world.trace| && s.world.trace[..|w.trace|] == w.trace
    ensures forall i :: |w.trace| <= i < |s.world.trace| ==> s.world.trace[i].JournalCreated?
    ensures s.out.Ok? ==> s.world.runners[r].journal.Some? && s.world.runners[r].journal == s.world.globalJournal
    ensures s.out.Err? ==> s.world == w
    ensures var b := w.runners[r].bindings;
            && (setupFailure.Some? ==> s == Step(w, Err(LoggingSetup(setupFailure.value))))
            && (setupFailure.None? && !HasLogKeys(b) ==> s == Step(w, Err(MissingBinding(MissingLogKey(b)))))
            && (setupFailure.None? && HasLogKeys(b) && w.globalJournal.Some? ==>
                  s == Step(w.(runners := w.runners[r := w.runners[r].(journal := w.globalJournal)]), Ok(())))
            && (setupFailure.None? && HasLogKeys(b) && w.globalJournal.None? ==>
                  && s.out.Ok?
                  && s.world.globalJournal.Some?
                  && (forall id :: id in w.runners ==> w.runners[id].journal != s.world.globalJournal)
                  && s.world.runners == w.runners[r := w.runners[r].(journal := s.world.globalJournal)]
                  && s.world.trace == w.trace + [JournalCreated(s.world.globalJournal.value, JournalPath(b))]
                  && s.world.scenarios == w.scenarios && s.world.globalRunner == w.globalRunner)
  {
    var b := w.runners[r].bindings;
    if setupFailure.Some? then Step(w, Err(LoggingSetup(setupFailure.value)))
    else if !HasLogKeys(b) then Step(w, Err(MissingBinding(MissingLogKey(b))))
    else if w.globalJournal.Some? then
      Step(w.(runners := w.runners[r := w.runners[r].(journal := w.globalJournal)]), Ok(()))
    else
      var j := w.nextId;
      Step(w.(runners := w.runners[r := w.runners[r].(journal := Some(j))],
              globalJournal := Some(j),
              nextId := j + 1,
              trace := w.trace + [JournalCreated(j, JournalPath(b))]),
           Ok(()))
  }

  /** The same runners exist, with the delegates, binding overrides and
      parser hooks they were given. */
  predicate SameSetup(w: World, w': World)
  {
    && w'.runners.Keys == w.runners.Keys
    && forall id :: id in w.runners ==>
         && w'.runners[id].delegate == w.runners[id].delegate
         && w'.runners[id].overrides == w.runners[id].overrides
         && w'.runners[id].parserInits == w.runners[id].parserInits
  }

  /** `_prepare`: record the parsed options, merge the parsed bindings over
      the existing ones (the parsed value wins on a shared key), then start
      logging. */
  function Prepare(w: World, r: RunnerId, options: Options, parsed: Bindings,
                   setupFailure: Option<string>): (s: Step<()>)
    requires Valid(w) && r in w.runners
    ensures Valid(s.world)
    ensures s.world.runners.Keys == w.runners.Keys
    ensures forall id :: id in w.runners && id != r ==> s.world.runners[id] == w.runners[id]
    ensures var before, after := w.runners[r], s.world.runners[r];
            && after.options == Some(options)
            && after.bindings.Keys == before.bindings.Keys + parsed.Keys
            && (forall k :: k in parsed ==> after.bindings[k] == parsed[k])
            && (forall k :: k in before.bindings && k !in parsed ==> after.bindings[k] == before.bindings[k])
            && after.delegate == before.delegate && after.overrides == before.overrides
            && after.parserInits == before.parserInits
            && (s.out.Ok? ==> after.journal.Some? && after.journal == s.world.globalJournal)
            && (s.out.Err? ==> after.journal == before.journal && s.world.globalJournal == w.globalJournal)
    ensures SameSetup(w, s.world)
    ensures |s.world.trace| > |w.trace| && s.world.trace[..|w.trace| + 1] == w.trace + [Prepared(r)]
    ensures forall i :: |w.trace| < i < |s.world.trace| ==> s.world.trace[i].JournalCreated?
    ensures s.world.scenarios == w.scenarios && s.world.globalRunner == w.globalRunner
    ensures var merged := w.runners[r].bindings + parsed;
            && (s.out.Err? <==> setupFailure.Some? || !HasLogKeys(merged))
            && (setupFailure.Some? ==> s.out.error == LoggingSetup(setupFailure.value))
            && (setupFailure.None? && !HasLogKeys(merged) ==> s.out.error == MissingBinding(MissingLogKey(merged)))
            && (s.out.Ok? && w.globalJournal.Some? ==>
                  s.world.globalJournal == w.globalJournal && s.world.trace == w.trace + [Prepared(r)])
            && (s.out.Ok? && w.globalJournal.None? ==>
                  && s.world.globalJournal.Some?
                  && (forall id :: id in w.runners ==> w.runners[id].journal != s.world.globalJournal)
                  && s.world.trace
                     == w.trace + [Prepared(r), JournalCreated(s.world.globalJournal.value, JournalPath(merged))])
  {
    var runner := w.runners[r];
    var merged := runner.(options := Some(options), bindings := runner.bindings + parsed);
    var w1 := w.(runners := w.runners[r := merged], trace := w.trace + [Prepared(r)]);
    assert Valid(w1);
    var s := StartLogging(w1, r, setupFailure);
    assert s.world.runners[r] == merged.(journal := s.world.runners[r].journal);
    assert s.world.trace[..|w.trace| + 1] == w1.trace by {
      assert s.world.trace[..|w1.trace|] == w1.trace;
    }
    LoggingAfterMerge(w, r, merged, setupFailure);
    s
  }

  /** How `start_logging` ends once `_prepare` has recorded its step and
      merged the bindings (`merged` keeps the runner's journal reference). */
  lemma LoggingAfterMerge(w: World, r: RunnerId, merged: Runner, setupFailure: Option<string>)
    requires Valid(w) && r in w.runners && merged.journal == w.runners[r].journal
    ensures var w1 := w.(runners := w.runners[r := merged], trace := w.trace + [Prepared(r)]);
            var s := StartLogging(w1, r, setupFailure);
            && (s.out.Err? <==> setupFailure.Some? || !HasLogKeys(merged.bindings))
            && (setupFailure.Some? ==> s.out.error == LoggingSetup(setupFailure.value))
            && (setupFailure.None? && !HasLogKeys(merged.bindings) ==>
                  s.out.error == MissingBinding(MissingLogKey(merged.bindings)))
            && (s.out.Ok? && w.globalJournal.Some? ==>
                  s.world.globalJournal == w.globalJournal && s.world.trace == w.trace + [Prepared(r)])
            && (s.out.Ok? && w.globalJournal.None? ==>
                  && s.world.globalJournal.Some?
                  && (forall id :: id in w.runners ==> w.runners[id].journal != s.world.globalJournal)
                  && s.world.trace
                     == w.trace + [Prepared(r), JournalCreated(s.world.globalJournal.value, JournalPath(merged.bindings))])
  {
    var w1 := w.(runners := w.runners[r := merged], trace := w.trace + [Prepared(r)]);
    assert Valid(w1);
    assert forall id :: id in w.runners ==> w1.runners[id].journal == w.runners[id].journal;
    var s := StartLogging(w1, r, setupFailure);
    if setupFailure.None? && HasLogKeys(merged.bindings) && w.globalJournal.None? {
      var e := JournalCreated(s.world.globalJournal.value, JournalPath(merged.bindings));
      assert w1.trace + [e] == w.trace + [Prepared(r), e];
    }
  }

  /** The `try`/`finally` part of `run`, from a prepared state: the
      delegate runs, the early-termination notice is emitted when `notice`
      holds, cleanup runs, and the delegate's result or exception is passed
      on. */
  function TryFinally(w: World, r: RunnerId, suite: seq<TestId>, outcome: Outcome, notice: bool): Step<TestResult>
  {
    var ran := w.trace + [DelegateRan(r, suite)];
    var finale := (if notice then [EarlyTermination] else []) + [CleanedUp(r)];
    Step(w.(trace := ran + finale),
         if outcome.Returned? then Ok(outcome.result) else Err(DelegateRaised(outcome.exception)))
  }

  /** `run` as intended: once preparation succeeded, the delegate runs and
      cleanup is the last step whether it returned or raised; the notice
      sits between them exactly when the delegate raised, and the raise
      propagates without a result. */
  function Run(w: World, r: RunnerId, suite: seq<TestId>, options: Options, parsed: Bindings,
               setupFailure: Option<string>, outcome: Outcome): (s: Step<TestResult>)
    requires Valid(w) && r in w.runners
    ensures Valid(s.world)
    ensures SameSetup(w, s.world)
    ensures s.world.globalRunner == w.globalRunner && s.world.scenarios == w.scenarios
    ensures var p := Prepare(w, r, options, parsed, setupFailure);
            p.out.Ok? ==>
              && s.world.runners == p.world.runners && s.world.globalJournal == p.world.globalJournal
              && |s.world.trace| == |p.world.trace| + (if outcome.Raised? then 3 else 2)
              && s.world.trace[..|p.world.trace| + 1] == p.world.trace + [DelegateRan(r, suite)]
              && s.world.trace[|s.world.trace| - 1] == CleanedUp(r)
              && (EarlyTermination in s.world.trace[|p.world.trace|..] <==> outcome.Raised?)
              && (s.out.Ok? <==> outcome.Returned?)
              && (outcome.Returned? ==> s.out.value == outcome.result)
              && (outcome.Raised? ==> s.out.error == DelegateRaised(outcome.exception))
    ensures var p := Prepare(w, r, options, parsed, setupFailure);
            p.out.Err? ==>
              && s == Step(p.world, Err(p.out.error))
              && (forall i :: |w.trace| <= i < |s.world.trace| ==>
                    !s.world.trace[i].DelegateRan? && !s.world.trace[i].CleanedUp?)
    ensures forall i :: |w.trace| <= i < |s.world.trace| ==> RunEvent(s.world.trace[i])
  {
    var p := Prepare(w, r, options, parsed, setupFailure);
    PrepareEvents(w, r, options, parsed, setupFailure);
    if p.out.Err? then Step(p.world, Err(p.out.error))
    else
      FinallyShape(p.world, r, suite, outcome, outcome.Raised?);
      var s := TryFinally(p.world, r, suite, outcome, outcome.Raised?);
      RunEventsExtend(|w.trace|, p.world.trace, s.world.trace);
      s
  }

  /** The kinds of step `run` records: preparing (with journal creation),
      the delegate, the notice and the cleanup hook. No journal is
      terminated and no report generated. */
  predicate RunEvent(e: Event)
  {
    e.Prepared? || e.JournalCreated? || e.DelegateRan? || e.EarlyTermination? || e.CleanedUp?
  }

  /** The events `run` appends after preparing: the delegate, the notice
      when one is due, and the cleanup hook last; nothing else changes. */
  lemma FinallyShape(w: World, r: RunnerId, suite: seq<TestId>, outcome: Outcome, notice: bool)
    ensures var s := TryFinally(w, r, suite, outcome, notice);
            && s.world == w.(trace := s.world.trace)
            && |s.world.trace| == |w.trace| + (if notice then 3 else 2)
            && s.world.trace[..|w.trace| + 1] == w.trace + [DelegateRan(r, suite)]
            && s.world.trace[|s.world.trace| - 1] == CleanedUp(r)
            && (EarlyTermination in s.world.trace[|w.trace|..] <==> notice)
            && (forall i :: |w.trace| <= i < |s.world.trace| ==> RunEvent(s.world.trace[i]))
  {
    var s := TryFinally(w, r, suite, outcome, notice);
    var added := [DelegateRan(r, suite)] + (if notice then [EarlyTermination] else []) + [CleanedUp(r)];
    assert s.world.trace == w.trace + added;
    assert s.world.trace[|w.trace|..] == added;
  }

  /** Extending a trace whose new steps are all `run` steps by more `run`
      steps keeps that so. */
  lemma RunEventsExtend(start: nat, t: seq<Event>, t': seq<Event>)
    requires start <= |t| <= |t'| && t'[..|t|] == t
    requires forall i :: start <= i < |t| ==> RunEvent(t[i])
    requires forall i :: |t| <= i < |t'| ==> RunEvent(t'[i])
    ensures forall i :: start <= i < |t'| ==> RunEvent(t'[i])
  {
    forall i | start <= i < |t'|
      ensures RunEvent(t'[i])
    {
      if i < |t| {
        assert t'[i] == t'[..|t|][i];
      }
    }
  }

  /** Every step preparation records is a `run` step. */
  lemma PrepareEvents(w: World, r: RunnerId, options: Options, parsed: Bindings, setupFailure: Option<string>)
    requires Valid(w) && r in w.runners
    ensures var p := Prepare(w, r, options, parsed, setupFailure);
            forall i :: |w.trace| <= i < |p.world.trace| ==>
              RunEvent(p.world.trace[i]) && !p.world.trace[i].DelegateRan? && !p.world.trace[i].CleanedUp?
  {
    var p := Prepare(w, r, options, parsed, setupFailure);
    assert p.world.trace[|w.trace|] == (w.trace + [Prepared(r)])[|w.trace|];
  }

  /** `run` as written: under Python 2 a `finally` clause does not see the
      exception in flight through `sys.exc_info()`, which instead reports an
      exception handled earlier in the calling frames, if any
      (`priorHandled`). The notice therefore follows `priorHandled`, not the
      delegate's outcome. */
  function RunAsWritten(w: World, r: RunnerId, suite: seq<TestId>, options: Options, parsed: Bindings,
                        setupFailure: Option<string>, outcome: Outcome, priorHandled: bool): (s: Step<TestResult>)
    requires Valid(w) && r in w.runners
    ensures var p := Prepare(w, r, options, parsed, setupFailure);
            p.out.Ok? ==>
              && |p.world.trace| <= |s.world.trace|
              && (EarlyTermination in s.world.trace[|p.world.trace|..] <==> priorHandled)
  {
    var p := Prepare(w, r, options, parsed, setupFailure);
    if p.out.Err? then Step(p.world, Err(p.out.error))
    else
      FinallyShape(p.world, r, suite, outcome, priorHandled);
      TryFinally(p.world, r, suite, outcome, priorHandled)
  }

  /** The discrepancy: with no earlier handled exception, a raising
      delegate gets no notice as written (cleanup directly follows the
      delegate), while the intended `Run` emits it; and after an earlier
      handled exception a delegate that returned normally gets a notice. */
  lemma RunNoticeDiscrepancy(w: World, r: RunnerId, suite: seq<TestId>, options: Options, parsed: Bindings,
                             setupFailure: Option<string>, outcome: Outcome)
    requires Valid(w) && r in w.runners
    requires Prepare(w, r, options, parsed, setupFailure).out.Ok?
    ensures var p := Prepare(w, r, options, parsed, setupFailure);
            var start := |p.world.trace|;
            outcome.Raised? ==>
              && EarlyTermination
                 !in RunAsWritten(w, r, suite, options, parsed, setupFailure, outcome, false).world.trace[start..]
              && EarlyTermination in Run(w, r, suite, options, parsed, setupFailure, outcome).world.trace[start..]
    ensures var p := Prepare(w, r, options, parsed, setupFailure);
            var start := |p.world.trace|;
            outcome.Returned? ==>
              && EarlyTermination
                 in RunAsWritten(w, r, suite, options, parsed, setupFailure, outcome, true).world.trace[start..]
              && EarlyTermination !in Run(w, r, suite, options, parsed, setupFailure, outcome).world.trace[start..]
  {
  }

  /** The journal teardown of `_do_main`. With no journal nothing happens.
      Otherwise the global journal is cleared only if it is this runner's
      journal (a different one stays registered), this runner's journal is
      terminated either way, and report generation is requested for the
      journal path; its return code is only recorded. */
  function Teardown(w: World, r: RunnerId, retcode: int): (s: Step<()>)
    requires Valid(w) && r in w.runners
    ensures Valid(s.world)
    ensures s.world == w.(globalJournal := s.world.globalJournal, trace := s.world.trace)
    ensures |w.trace| <= |s.world.trace| && s.world.trace[..|w.trace|] == w.trace
    ensures w.runners[r].journal.None? ==> s == Step(w, Ok(()))
    ensures w.runners[r].journal.Some? ==>
              var j, b := w.runners[r].journal.value, w.runners[r].bindings;
              && (w.globalJournal == Some(j) ==> s.world.globalJournal == None)
              && (w.globalJournal != Some(j) ==> s.world.globalJournal == w.globalJournal)
              && s.world == w.(globalJournal := s.world.globalJournal, trace := s.world.trace)
              && (HasLogKeys(b) ==>
                    s == Step(s.world, Ok(()))
                    && s.world.trace
                       == w.trace + [JournalTerminated(j), ReportGeneration(JournalPath(b), retcode == 0)])
              && (!HasLogKeys(b) ==>
                    s == Step(s.world, Err(MissingBinding(MissingLogKey(b))))
                    && s.world.trace == w.trace + [JournalTerminated(j)])
  {
    var runner := w.runners[r];
    if runner.journal.None? then Step(w, Ok(()))
    else
      var j := runner.journal.value;
      var global := if w.globalJournal == Some(j) then None else w.globalJournal;
      var terminated := w.(globalJournal := global, trace := w.trace + [JournalTerminated(j)]);
      if !HasLogKeys(runner.bindings) then Step(terminated, Err(MissingBinding(MissingLogKey(runner.bindings))))
      else
        Step(terminated.(trace := terminated.trace + [ReportGeneration(JournalPath(runner.bindings), retcode == 0)]),
             Ok(()))
  }

  /** The number of failed plus erroneous tests: the process exit code. */
  function ExitCode(result: TestResult): nat
  {
    |result.failures| + |result.errors|
  }

  /** With LOG_DIR `/tmp/x`, LOG_FILEBASE `run1` and no global journal,
      `start_logging` creates the journal at `/tmp/x/run1.journal`. */
  lemma StartLoggingPathExample(w: World, r: RunnerId)
    requires Valid(w) && r in w.runners && w.globalJournal.None?
    requires w.runners[r].bindings == map["LOG_DIR" := "/tmp/x", "LOG_FILEBASE" := "run1"]
    ensures var s := StartLogging(w, r, None);
            s.out.Ok? && s.world.globalJournal.Some?
            && s.world.trace == w.trace + [JournalCreated(s.world.globalJournal.value, "/tmp/x/run1.journal")]
  {
    var b := w.runners[r].bindings;
    assert b["LOG_DIR"] == "/tmp/x" && b["LOG_FILEBASE"] == "run1";
    assert JournalPath(b) == "/tmp/x/run1.journal";
  }

  /** `_do_main`: build the suite, run it, tear the journal down, and
      return the failure plus error count. */
  function DoMain(w: World, r: RunnerId, classes: Option<seq<ClassId>>, load: ClassId -> seq<TestId>,
                  options: Options, parsed: Bindings, setupFailure: Option<string>,
                  outcome: Outcome, retcode: int): (s: Step<nat>)
    requires Valid(w) && r in w.runners
    ensures Valid(s.world)
    ensures s.world.globalRunner == w.globalRunner && s.world.scenarios == w.scenarios
    ensures SameSetup(w, s.world)
    ensures BuildSuite(classes, load).Err? ==> s == Step(w, Err(NoTestCases))
    ensures s.out.Ok? ==> outcome.Returned? && s.out.value == ExitCode(outcome.result)
    ensures outcome.Raised? && BuildSuite(classes, load).Ok? && setupFailure.None?
            && HasLogKeys(w.runners[r].bindings + parsed) ==>
              s.out == Err(DelegateRaised(outcome.exception))
  {
    match BuildSuite(classes, load)
    case Err(e) => Step(w, Err(e))
    case Ok(suite) =>
      var run := Run(w, r, suite, options, parsed, setupFailure, outcome);
      match run.out
      case Err(e) => Step(run.world, Err(e))
      case Ok(result) =>
        var t := Teardown(run.world, r, retcode);
        if t.out.Err? then Step(t.world, Err(t.out.error))
        else Step(t.world, Ok(ExitCode(result)))
  }

  /** Once preparation succeeded, the delegate is handed exactly the suite
      `build_suite` produced, right after the preparing steps. */
  lemma DoMainRunsBuiltSuite(w: World, r: RunnerId, classes: seq<ClassId>, load: ClassId -> seq<TestId>,
                             options: Options, parsed: Bindings, setupFailure: Option<string>,
                             outcome: Outcome, retcode: int)
    requires Valid(w) && r in w.runners && |classes| > 0
    requires Prepare(w, r, options, parsed, setupFailure).out.Ok?
    ensures var p := Prepare(w, r, options, parsed, setupFailure);
            var s := DoMain(w, r, Some(classes), load, options, parsed, setupFailure, outcome, retcode);
            && |p.world.trace| < |s.world.trace|
            && s.world.trace[..|p.world.trace| + 1] == p.world.trace + [DelegateRan(r, Flatten(classes, load))]
  {
    var p := Prepare(w, r, options, parsed, setupFailure);
    var run := Run(w, r, Flatten(classes, load), options, parsed, setupFailure, outcome);
    var s := DoMain(w, r, Some(classes), load, options, parsed, setupFailure, outcome, retcode);
    var k := |p.world.trace| + 1;
    assert k < |run.world.trace| && run.world.trace[..k] == p.world.trace + [DelegateRan(r, Flatten(classes, load))];
    if run.out.Ok? {
      var t := Teardown(run.world, r, retcode);
      assert s.world == t.world;
      PrefixKeeps(run.world.trace, t.world.trace, k);
    } else {
      assert s.world == run.world;
    }
  }

  /** A raising delegate propagates out of `_do_main` before the teardown:
      the state is the one `run` left, with no journal terminated and no
      report requested; after a successful preparation the runner's journal
      is still the global one. */
  lemma DoMainRaisedSkipsTeardown(w: World, r: RunnerId, classes: seq<ClassId>, load: ClassId -> seq<TestId>,
                                  options: Options, parsed: Bindings, setupFailure: Option<string>,
                                  exception: string, retcode: int)
    requires Valid(w) && r in w.runners && |classes| > 0
    ensures var run := Run(w, r, Flatten(classes, load), options, parsed, setupFailure, Raised(exception));
            var s := DoMain(w, r, Some(classes), load, options, parsed, setupFailure, Raised(exception), retcode);
            && s == Step(run.world, Err(run.out.error))
            && (forall i :: |w.trace| <= i < |s.world.trace| ==>
                  !s.world.trace[i].JournalTerminated? && !s.world.trace[i].ReportGeneration?)
            && (Prepare(w, r, options, parsed, setupFailure).out.Ok? ==>
                  s.world.globalJournal.Some? && s.world.globalJournal == s.world.runners[r].journal)
  {
    var run := Run(w, r, Flatten(classes, load), options, parsed, setupFailure, Raised(exception));
    var s := DoMain(w, r, Some(classes), load, options, parsed, setupFailure, Raised(exception), retcode);
    assert s == Step(run.world, Err(run.out.error)) by {
      assert run.out.Err?;
    }
    forall i | |w.trace| <= i < |s.world.trace|
      ensures !s.world.trace[i].JournalTerminated? && !s.world.trace[i].ReportGeneration?
    {
      assert RunEvent(run.world.trace[i]);
    }
    var p := Prepare(w, r, options, parsed, setupFailure);
    if p.out.Ok? {
      assert run.world.runners == p.world.runners && run.world.globalJournal == p.world.globalJournal;
    }
  }

  /** A failed preparation (the logging setup failed, or `LOG_DIR` or
      `LOG_FILEBASE` is unbound) propagates out of `_do_main` whatever the
      delegate would have done: the error is the preparation's, the state is
      the one preparation left, the delegate never ran, and neither the
      runner's journal nor the global journal changed. */
  lemma DoMainPrepareFailurePropagates(w: World, r: RunnerId, classes: seq<ClassId>, load: ClassId -> seq<TestId>,
                                       options: Options, parsed: Bindings, setupFailure: Option<string>,
                                       outcome: Outcome, retcode: int)
    requires Valid(w) && r in w.runners && |classes| > 0
    ensures var p := Prepare(w, r, options, parsed, setupFailure);
            var s := DoMain(w, r, Some(classes), load, options, parsed, setupFailure, outcome, retcode);
            p.out.Err? ==>
              && s == Step(p.world, Err(p.out.error))
              && (forall i :: |w.trace| <= i < |s.world.trace| ==>
                    !s.world.trace[i].DelegateRan? && !s.world.trace[i].JournalTerminated?)
              && s.world.globalJournal == w.globalJournal
              && s.world.runners[r].journal == w.runners[r].journal
  {
    var p := Prepare(w, r, options, parsed, setupFailure);
    if p.out.Err? {
      var run := Run(w, r, Flatten(classes, load), options, parsed, setupFailure, outcome);
      assert run == Step(p.world, Err(p.out.error));
      PrepareEvents(w, r, options, parsed, setupFailure);
    }
  }

  /** A prefix of a trace is kept by every extension of it. */
  lemma PrefixKeeps(t: seq<Event>, t': seq<Event>, k: nat)
    requires k <= |t| <= |t'| && t'[..|t|] == t
    ensures t'[..k] == t[..k]
  {
    assert t'[..k] == t'[..|t|][..k];
  }

  /** The exit code does not depend on the report generator's return code. */
  lemma DoMainIgnoresRetcode(w: World, r: RunnerId, classes: Option<seq<ClassId>>, load: ClassId -> seq<TestId>,
                             options: Options, parsed: Bindings, setupFailure: Option<string>,
                             outcome: Outcome, rc1: int, rc2: int)
    requires Valid(w) && r in w.runners
    ensures DoMain(w, r, classes, load, options, parsed, setupFailure, outcome, rc1).out
         == DoMain(w, r, classes, load, options, parsed, setupFailure, outcome, rc2).out
  {
  }

  /** A complete successful `_do_main`: the exit code is the failure plus
      error count, the journal it used is terminated and no longer global,
      and report generation is requested for the very path the journal
      would have been created at. */
  lemma DoMainSuccess(w: World, r: RunnerId, classes: seq<ClassId>, load: ClassId -> seq<TestId>,
                      options: Options, parsed: Bindings, result: TestResult, retcode: int)
    requires Valid(w) && r in w.runners
    requires |classes| > 0 && HasLogKeys(w.runners[r].bindings + parsed)
    ensures var s := DoMain(w, r, Some(classes), load, options, parsed, None, Returned(result), retcode);
            && s.out == Ok(ExitCode(result))
            && s.world.globalJournal == None
            && s.world.runners[r].journal.Some?
            && s.world.trace[|s.world.trace| - 2] == JournalTerminated(s.world.runners[r].journal.value)
            && s.world.trace[|s.world.trace| - 1]
               == ReportGeneration(JournalPath(w.runners[r].bindings + parsed), retcode == 0)
    ensures var s := DoMain(w, r, Some(classes), load, options, parsed, None, Returned(result), retcode);
            var run := Run(w, r, Flatten(classes, load), options, parsed, None, Returned(result));
            && s.world.runners == run.world.runners
            && s.world.trace
               == run.world.trace + [JournalTerminated(run.world.runners[r].journal.value),
                                     ReportGeneration(JournalPath(w.runners[r].bindings + parsed), retcode == 0)]
  {
    var s := DoMain(w, r, Some(classes), load, options, parsed, None, Returned(result), retcode);
    var run := Run(w, r, Flatten(classes, load), options, parsed, None, Returned(result));
    var path := JournalPath(w.runners[r].bindings + parsed);
    assert && s.out == Ok(ExitCode(result)) && s.world.globalJournal == None
           && run.world.runners[r].journal.Some? && s.world.runners == run.world.runners
           && s.world.trace
              == run.world.trace + [JournalTerminated(run.world.runners[r].journal.value),
                                    ReportGeneration(path, retcode == 0)] by {
      var p := Prepare(w, r, options, parsed, None);
      assert p.out.Ok?;
      assert run.world.runners[r] == p.world.runners[r];
      assert run.world.globalJournal == p.world.globalJournal;
      assert run.world.runners[r].bindings == w.runners[r].bindings + parsed;
      assert run.out == Ok(result);
      var t := Teardown(run.world, r, retcode);
      var j := run.world.runners[r].journal.value;
      assert t.out.Ok? && t.world.globalJournal == None;
      assert t.world.runners == run.world.runners;
      assert t.world.trace == run.world.trace + [JournalTerminated(j), ReportGeneration(path, retcode == 0)];
      assert s == Step(t.world, Ok(ExitCode(result)));
    }
    var n := |s.world.trace|;
    assert s.world.trace[n - 2] == JournalTerminated(run.world.runners[r].journal.value);
    assert s.world.trace[n - 1] == ReportGeneration(path, retcode == 0);
  }

  /** `_do_main` raises exactly when the class list is missing or empty,
      the logging setup failed, the merged bindings lack `LOG_DIR` or
      `LOG_FILEBASE`, or the delegate raised. */
  lemma DoMainFailsIff(w: World, r: RunnerId, classes: Option<seq<ClassId>>, load: ClassId -> seq<TestId>,
                       options: Options, parsed: Bindings, setupFailure: Option<string>,
                       outcome: Outcome, retcode: int)
    requires Valid(w) && r in w.runners
    ensures DoMain(w, r, classes, load, options, parsed, setupFailure, outcome, retcode).out.Err?
            <==> BuildSuite(classes, load).Err? || setupFailure.Some?
                 || !HasLogKeys(w.runners[r].bindings + parsed) || outcome.Raised?
  {
    if BuildSuite(classes, load).Ok? {
      var p := Prepare(w, r, options, parsed, setupFailure);
      if p.out.Err? {
        DoMainPrepareFailurePropagates(w, r, classes.value, load, options, parsed, setupFailure, outcome, retcode);
      } else if outcome.Raised? {
        DoMainRaisedSkipsTeardown(w, r, classes.value, load, options, parsed, setupFailure, outcome.exception, retcode);
      } else {
        DoMainSuccess(w, r, classes.value, load, options, parsed, outcome.result, retcode);
      }
    }
  }

  /** Two failures and one error make `_do_main` return 3. */
  lemma DoMainExitCodeExample(w: World, r: RunnerId, classes: seq<ClassId>, load: ClassId -> seq<TestId>,
                              options: Options, parsed: Bindings, retcode: int)
    requires Valid(w) && r in w.runners
    requires |classes| > 0 && HasLogKeys(w.runners[r].bindings + parsed)
    ensures DoMain(w, r, Some(classes), load, options, parsed, None,
                   Returned(TestResult(["a", "b"], ["c"])), retcode).out == Ok(3)
  {
    DoMainSuccess(w, r, classes, load, options, parsed, TestResult(["a", "b"], ["c"]), retcode);
  }

  /** With no test classes `_do_main` raises before preparing: no options
      parsed, no logging started, no journal created. */
  lemma DoMainEmptyFailsEarly(w: World, r: RunnerId, classes: Option<seq<ClassId>>, load: ClassId -> seq<TestId>,
                              options: Options, parsed: Bindings, setupFailure: Option<string>,
                              outcome: Outcome, retcode: int)
    requires Valid(w) && r in w.runners
    requires classes.None? || classes == Some([])
    ensures var s := DoMain(w, r, classes, load, options, parsed, setupFailure, outcome, retcode);
            s.out == Err(NoTestCases) && s.world == w
  {
  }

  /** `main`: construct a runner (which becomes the global runner), store the
      binding overrides and parser hooks, then run `_do_main` on it. */
  function Main(w: World, delegate: Option<nat>, inits: Option<seq<ParserInit>>, overrides: Option<Bindings>,
                classes: Option<seq<ClassId>>, load: ClassId -> seq<TestId>, options: Options,
                parsed: Bindings, setupFailure: Option<string>, outcome: Outcome, retcode: int): (s: Step<nat>)
    requires Valid(w)
    ensures Valid(s.world)
    ensures s.world.globalRunner.Some? && s.world.globalRunner.value !in w.runners
    ensures var runner := s.world.runners[s.world.globalRunner.value];
            runner.overrides == OrEmpty(overrides)
            && runner.parserInits == (if inits.Some? then inits.value else [])
    ensures BuildSuite(classes, load).Err? ==>
              s.out == Err(NoTestCases) && s.world.trace == w.trace && s.world.globalJournal == w.globalJournal
    ensures s.out.Ok? ==> outcome.Returned? && s.out.value == ExitCode(outcome.result)
  {
    var spawn := NewRunner(w, delegate);
    var w1 := SetDefaultBindingOverrides(spawn.world, spawn.runner, overrides);
    var w2 := SetParserInits(w1, spawn.runner, inits);
    assert w2.globalRunner == Some(spawn.runner) && w2.trace == w.trace && w2.globalJournal == w.globalJournal;
    assert w2.runners[spawn.runner].overrides == OrEmpty(overrides);
    DoMain(w2, spawn.runner, classes, load, options, parsed, setupFailure, outcome, retcode)
  }

  /** A successful `main`: the runner it constructs is the one prepared
      (its first step), the delegate is handed the suite of the class list,
      and the exit code is the failure plus error count. The new runner
      starts with no bindings, so the parsed ones alone must bind the log
      keys. */
  lemma MainSuccess(w: World, delegate: Option<nat>, inits: Option<seq<ParserInit>>, overrides: Option<Bindings>,
                    classes: seq<ClassId>, load: ClassId -> seq<TestId>, options: Options,
                    parsed: Bindings, result: TestResult, retcode: int)
    requires Valid(w) && |classes| > 0 && HasLogKeys(parsed)
    ensures var s := Main(w, delegate, inits, overrides, Some(classes), load, options, parsed, None,
                          Returned(result), retcode);
            && s.out == Ok(ExitCode(result))
            && s.world.globalRunner.Some?
            && |s.world.trace| > |w.trace|
            && s.world.trace[|w.trace|] == Prepared(s.world.globalRunner.value)
            && DelegateRan(s.world.globalRunner.value, Flatten(classes, load)) in s.world.trace[|w.trace|..]
  {
    var spawn := NewRunner(w, delegate);
    var r := spawn.runner;
    var w1 := SetDefaultBindingOverrides(spawn.world, r, overrides);
    var w2 := SetParserInits(w1, r, inits);
    var s := DoMain(w2, r, Some(classes), load, options, parsed, None, Returned(result), retcode);
    assert s == Main(w, delegate, inits, overrides, Some(classes), load, options, parsed, None,
                     Returned(result), retcode);
    assert w2.globalRunner == Some(r) && w2.trace == w.trace;
    assert w1.runners[r].bindings == map[];
    assert w2.runners[r].bindings == map[];
    assert "LOG_DIR" in w2.runners[r].bindings + parsed;
    assert "LOG_FILEBASE" in w2.runners[r].bindings + parsed;
    DoMainSuccess(w2, r, classes, load, options, parsed, result, retcode);
    DoMainPreparesThenRuns(w2, r, classes, load, options, parsed, result, retcode);
  }

  /** `main` raises exactly when `_do_main` on the new runner does: the new
      runner has no bindings of its own, so the parsed bindings alone must
      hold `LOG_DIR` and `LOG_FILEBASE`. */
  lemma MainFailsIff(w: World, delegate: Option<nat>, inits: Option<seq<ParserInit>>, overrides: Option<Bindings>,
                     classes: Option<seq<ClassId>>, load: ClassId -> seq<TestId>, options: Options,
                     parsed: Bindings, setupFailure: Option<string>, outcome: Outcome, retcode: int)
    requires Valid(w)
    ensures Main(w, delegate, inits, overrides, classes, load, options, parsed, setupFailure, outcome, retcode).out.Err?
            <==> BuildSuite(classes, load).Err? || setupFailure.Some? || !HasLogKeys(parsed) || outcome.Raised?
  {
    var spawn := NewRunner(w, delegate);
    var r := spawn.runner;
    var w1 := SetDefaultBindingOverrides(spawn.world, r, overrides);
    var w2 := SetParserInits(w1, r, inits);
    assert Main(w, delegate, inits, overrides, classes, load, options, parsed, setupFailure, outcome, retcode)
        == DoMain(w2, r, classes, load, options, parsed, setupFailure, outcome, retcode);
    assert w1.runners[r].bindings == map[];
    assert w2.runners[r].bindings == map[];
    assert "LOG_DIR" in w2.runners[r].bindings + parsed <==> "LOG_DIR" in parsed;
    assert "LOG_FILEBASE" in w2.runners[r].bindings + parsed <==> "LOG_FILEBASE" in parsed;
    DoMainFailsIff(w2, r, classes, load, options, parsed, setupFailure, outcome, retcode);
  }

  /** In a successful `_do_main` the first step prepares this runner and
      the delegate is later handed the suite of the class list. */
  lemma DoMainPreparesThenRuns(w: World, r: RunnerId, classes: seq<ClassId>, load: ClassId -> seq<TestId>,
                               options: Options, parsed: Bindings, result: TestResult, retcode: int)
    requires Valid(w) && r in w.runners
    requires |classes| > 0 && HasLogKeys(w.runners[r].bindings + parsed)
    ensures var s := DoMain(w, r, Some(classes), load, options, parsed, None, Returned(result), retcode);
            && |s.world.trace| > |w.trace| && s.world.trace[|w.trace|] == Prepared(r)
            && DelegateRan(r, Flatten(classes, load)) in s.world.trace[|w.trace|..]
  {
    var s := DoMain(w, r, Some(classes), load, options, parsed, None, Returned(result), retcode);
    var p := Prepare(w, r, options, parsed, None);
    assert p.out.Ok?;
    DoMainRunsBuiltSuite(w, r, classes, load, options, parsed, None, Returned(result), retcode);
    var n := |p.world.trace|;
    assert s.world.trace[|w.trace|] == s.world.trace[..n + 1][|w.trace|];
    assert s.world.trace[..n + 1][|w.trace|] == p.world.trace[..|w.trace| + 1][|w.trace|];
    assert s.world.trace[n] == s.world.trace[..n + 1][n];
    assert s.world.trace[|w.trace|..][n - |w.trace|] == s.world.trace[n];
  }

  /** `finish_report_journal`: with no journal nothing changes; otherwise
      the journal is terminated and this runner's reference cleared, and
      nothing else changes (the global journal slot included). */
  function FinishReportJournal(w: World, r: RunnerId): (w': World)
    requires Valid(w) && r in w.runners
    ensures Valid(w')
    ensures w.runners[r].journal.None? ==> w' == w
    ensures r in w'.runners
    ensures w.runners[r].journal.Some? ==>
              && w'.runners[r].journal == None
              && w'.trace == w.trace + [JournalTerminated(w.runners[r].journal.value)]
              && w' == w.(runners := w'.runners, trace := w'.trace)
              && w'.runners == w.runners[r := w'.runners[r]]
              && w'.runners[r] == w.runners[r].(journal := None)
  {
    var runner := w.runners[r];
    if runner.journal.None? then w
    else w.(runners := w.runners[r := runner.(journal := None)],
            trace := w.trace + [JournalTerminated(runner.journal.value)])
  }

  /** A second `finish_report_journal` does nothing. */
  lemma FinishReportJournalIdempotent(w: World, r: RunnerId)
    requires Valid(w) && r in w.runners
    ensures FinishReportJournal(FinishReportJournal(w, r), r) == FinishReportJournal(w, r)
  {
  }

  /** `report` as intended: an object without the snapshot capability is
      rejected; otherwise it is stored in this runner's journal, which must
      exist. Nothing else changes. */
  function Report(w: World, r: RunnerId, obj: ObjectId, snapshotable: ObjectId -> bool): (s: Step<()>)
    requires Valid(w) && r in w.runners
    ensures !snapshotable(obj) ==> s == Step(w, Err(NotSnapshotable(obj)))
    ensures snapshotable(obj) && w.runners[r].journal.None? ==> s == Step(w, Err(NoJournal))
    ensures snapshotable(obj) && w.runners[r].journal.Some? ==>
              s == Step(w.(trace := w.trace + [JournalStored(w.runners[r].journal.value, obj)]), Ok(()))
  {
    if !snapshotable(obj) then Step(w, Err(NotSnapshotable(obj)))
    else match w.runners[r].journal
      case None => Step(w, Err(NoJournal))
      case Some(j) => Step(w.(trace := w.trace + [JournalStored(j, obj)]), Ok(()))
  }

  /** After `finish_report_journal` a runner can no longer report. */
  lemma ReportAfterFinish(w: World, r: RunnerId, obj: ObjectId, snapshotable: ObjectId -> bool)
    requires Valid(w) && r in w.runners && snapshotable(obj)
    ensures Report(FinishReportJournal(w, r), r, obj, snapshotable) == Step(FinishReportJournal(w, r), Err(NoJournal))
  {
  }

  /** `report` as written: the rejection raises a plain string, which
      Python 2.6 and later refuse with a TypeError that replaces the
      intended message. */
  function ReportAsWritten(w: World, r: RunnerId, obj: ObjectId, snapshotable: ObjectId -> bool): (s: Step<()>)
    requires Valid(w) && r in w.runners
    ensures !snapshotable(obj) ==> s == Step(w, Err(StringRaised))
    ensures snapshotable(obj) ==> s == Report(w, r, obj, snapshotable)
  {
    if !snapshotable(obj) then Step(w, Err(StringRaised))
    else Report(w, r, obj, snapshotable)
  }

  /** The discrepancy: for any object without the capability the error
      raised as written is not the one naming the object. */
  lemma ReportRaiseDiscrepancy(w: World, r: RunnerId, obj: ObjectId, snapshotable: ObjectId -> bool)
    requires Valid(w) && r in w.runners && !snapshotable(obj)
    ensures ReportAsWritten(w, r, obj, snapshotable).out != Report(w, r, obj, snapshotable).out
  {
  }
}

=== FILE: registry.dfy ===
/** Runner registration (last writer wins) and the process-wide cache of
    shared scenario instances. */
module Registry {
  import opened RunnerState

  /** A new runner and the state that now holds it. */
  datatype Spawn = Spawn(world: World, runner: RunnerId)

  /** Constructing a `TestRunner`: the new object always takes the global
      slot, and starts with no options, empty bindings and overrides, no
      parser hooks and no journal. */
  function NewRunner(w: World, delegate: Option<nat>): (s: Spawn)
    requires Valid(w)
    ensures Valid(s.world)
    ensures s.world.globalRunner == Some(s.runner)
    ensures s.runner !in w.runners && s.world.runners.Keys == w.runners.Keys + {s.runner}
    ensures forall id :: id in w.runners ==> s.world.runners[id] == w.runners[id]
    ensures s.world.runners[s.runner].delegate == (if delegate.Some? then Injected(delegate.value) else TextTestRunner)
    ensures var born := s.world.runners[s.runner];
            born.options == None && born.bindings == map[] && born.overrides == map[]
            && born.parserInits == [] && born.journal == None
    ensures s.world.scenarios == w.scenarios && s.world.globalJournal == w.globalJournal
    ensures s.world.trace == w.trace
  {
    var id := w.nextId;
    var d := if delegate.Some? then Injected(delegate.value) else TextTestRunner;
    Spawn(w.(globalRunner := Some(id),
             runners := w.runners[id := Runner(d, None, map[], map[], [], None)],
             nextId := id + 1),
          id)
  }

  /** `global_runner()`: the registered runner, or an error before any
      runner has been constructed. */
  function GlobalRunner(w: World): (r: Result<RunnerId>)
    requires Valid(w)
    ensures r.Ok? <==> w.globalRunner.Some?
    ensures r.Ok? ==> Some(r.value) == w.globalRunner && r.value in w.runners
    ensures r.Err? ==> r.error == NotInstantiated
  {
    if w.globalRunner.None? then Err(NotInstantiated) else Ok(w.globalRunner.value)
  }

  /** `set_default_binding_overrides`: None (or an empty mapping) becomes
      the empty mapping; nothing but this runner's overrides changes. */
  function SetDefaultBindingOverrides(w: World, r: RunnerId, overrides: Option<Bindings>): (w': World)
    requires Valid(w) && r in w.runners
    ensures Valid(w')
    ensures w'.runners.Keys == w.runners.Keys
    ensures w'.runners[r] == w.runners[r].(overrides := OrEmpty(overrides))
    ensures forall id :: id in w.runners && id != r ==> w'.runners[id] == w.runners[id]
    ensures w' == w.(runners := w'.runners)
  {
    w.(runners := w.runners[r := w.runners[r].(overrides := OrEmpty(overrides))])
  }

  /** `set_parser_inits`: None (or an empty list) becomes the empty list. */
  function SetParserInits(w: World, r: RunnerId, inits: Option<seq<ParserInit>>): (w': World)
    requires Valid(w) && r in w.runners
    ensures Valid(w')
    ensures w'.runners.Keys == w.runners.Keys
    ensures w'.runners[r].parserInits == (if inits.Some? then inits.value else [])
    ensures w'.runners[r] == w.runners[r].(parserInits := w'.runners[r].parserInits)
    ensures forall id :: id in w.runners && id != r ==> w'.runners[id] == w.runners[id]
    ensures w' == w.(runners := w'.runners)
  {
    var hooks := if inits.Some? then inits.value else [];
    w.(runners := w.runners[r := w.runners[r].(parserInits := hooks)])
  }

  /** `get_shared_data(klass)`. A hit returns the stored instance and
      changes nothing. A miss asks for the global runner (raising when there
      is none, with nothing changed), constructs one new instance from that
      runner's current bindings, and stores it under `klass` without
      touching any other entry. */
  function GetSharedData(w: World, klass: ClassId): (s: Step<Instance>)
    requires Valid(w)
    ensures Valid(s.world)
    ensures klass in w.scenarios ==> s == Step(w, Ok(w.scenarios[klass]))
    ensures klass !in w.scenarios && w.globalRunner.None? ==> s == Step(w, Err(NotInstantiated))
    ensures klass !in w.scenarios && w.globalRunner.Some? ==>
              && s.out.Ok?
              && s.out.value.klass == klass
              && s.out.value.bindings == w.runners[w.globalRunner.value].bindings
              && (forall k :: k in w.scenarios ==> w.scenarios[k].id != s.out.value.id)
              && s.world.scenarios.Keys == w.scenarios.Keys + {klass}
              && s.world.scenarios[klass] == s.out.value
              && (forall k :: k in w.scenarios ==> s.world.scenarios[k] == w.scenarios[k])
              && s.world.trace == w.trace + [Constructed(klass, s.out.value.id)]
    ensures s.world.globalRunner == w.globalRunner && s.world.runners == w.runners
    ensures s.world.globalJournal == w.globalJournal
  {
    if klass in w.scenarios then
      Step(w, Ok(w.scenarios[klass]))
    else
      match GlobalRunner(w)
      case Err(e) => Step(w, Err(e))
      case Ok(g) =>
        var instance := Instance(w.nextId, klass, w.runners[g].bindings);
        Step(w.(scenarios := w.scenarios[klass := instance],
                nextId := w.nextId + 1,
                trace := w.trace + [Constructed(klass, instance.id)]),
             Ok(instance))
  }

  /** The state after asking for the shared data of each class in turn. */
  function SharedAll(w: World, classes: seq<ClassId>): (w': World)
    requires Valid(w)
    ensures Valid(w')
    ensures w'.globalRunner == w.globalRunner && w'.runners == w.runners
    ensures |w.trace| <= |w'.trace| && w'.trace[..|w.trace|] == w.trace
    decreases |classes|
  {
    if |classes| == 0 then w else SharedAll(GetSharedData(w, classes[0]).world, classes[1..])
  }

  /** How many times the constructor of `klass` ran in `t`. */
  function Constructions(t: seq<Event>, klass: ClassId): nat
  {
    if |t| == 0 then 0
    else (if t[0].Constructed? && t[0].klass == klass then 1 else 0) + Constructions(t[1..], klass)
  }

  lemma {:induction false} ConstructionsAppend(a: seq<Event>, b: seq<Event>, klass: ClassId)
    ensures Constructions(a + b, klass) == Constructions(a, klass) + Constructions(b, klass)
    decreases |a|
  {
    if |a| == 0 {
      assert a + b == b;
    } else {
      assert (a + b)[1..] == a[1..] + b;
      ConstructionsAppend(a[1..], b, klass);
    }
  }

  /** Over any sequence of `get_shared_data` calls, the constructor of a
      class runs exactly once if the class was not cached, is requested, and
      a runner exists; otherwise it never runs. */
  lemma {:induction false} ConstructedAtMostOnce(w: World, classes: seq<ClassId>, klass: ClassId)
    requires Valid(w)
    ensures Constructions(SharedAll(w, classes).trace[|w.trace|..], klass)
            == (if klass !in w.scenarios && klass in classes && w.globalRunner.Some? then 1 else 0)
    decreases |classes|
  {
    var w' := SharedAll(w, classes);
    if |classes| == 0 {
      assert w'.trace[|w.trace|..] == [];
    } else {
      var w1 := GetSharedData(w, classes[0]).world;
      assert w' == SharedAll(w1, classes[1..]);
      ConstructedAtMostOnce(w1, classes[1..], klass);
      var added := w1.trace[|w.trace|..];
      assert w'.trace[|w.trace|..] == added + w'.trace[|w1.trace|..];
      ConstructionsAppend(added, w'.trace[|w1.trace|..], klass);
      assert classes == [classes[0]] + classes[1..];
      if classes[0] in w.scenarios || w.globalRunner.None? {
        assert added == [];
      } else {
        assert added == [Constructed(classes[0], GetSharedData(w, classes[0]).out.value.id)];
        assert Constructions(added[1..], klass) == 0;
        assert klass == classes[0] ==> klass in w1.scenarios;
      }
    }
  }

  /** Asking twice for the same class yields the identical instance, and
      the second call changes nothing. */
  lemma SharedDataIdentity(w: World, klass: ClassId)
    requires Valid(w)
    ensures var first := GetSharedData(w, klass);
            first.out.Ok? ==> GetSharedData(first.world, klass) == Step(first.world, first.out)
  {
  }

  /** Two different classes never share an instance. */
  lemma DistinctClassesDistinctInstances(w: World, a: ClassId, b: ClassId)
    requires Valid(w) && a != b
    ensures var sa := GetSharedData(w, a);
            var sb := GetSharedData(sa.world, b);
            sa.out.Ok? && sb.out.Ok? ==> sa.out.value.id != sb.out.value.id
  {
  }

  /** Of two runners constructed in turn, the second holds the global slot;
      the first still exists, unchanged. */
  lemma LastWriterWins(w: World, d1: Option<nat>, d2: Option<nat>)
    requires Valid(w)
    ensures var first := NewRunner(w, d1);
            var second := NewRunner(first.world, d2);
            && second.world.globalRunner == Some(second.runner)
            && second.runner != first.runner
            && second.world.runners[first.runner] == first.world.runners[first.runner]
  {
  }
}

=== FILE: state.dfy ===
/** The process-wide state that the test-runner coordinator reads and writes.

    Every Python object the coordinator handles (runners, scenario instances,
    journals) is an opaque identity drawn from one allocator, `nextId`, so two
    values are "the same object" exactly when their identities are equal.
    Everything observable that is not a reference or a cache entry (a journal
    being created or terminated, the delegate running, the cleanup hook, ...)
    is appended to `trace`, so the order of steps can be stated.
 */
module RunnerState {

  type ClassId = string
  type TestId = string
  type RunnerId = nat
  type JournalId = nat
  /** Identity of an arbitrary object handed to `report`. */
  type ObjectId = nat
  /** Name/value bindings; keys are upper case by convention. */
  type Bindings = map<string, string>

  datatype Option<+T> = None | Some(value: T)

  /** The exceptions the coordinator raises or lets propagate. */
  datatype Error =
    | NotInstantiated                // `global_runner()` before any runner exists
    | NoTestCases                    // `build_suite` given None or an empty list
    | MissingBinding(key: string)    // KeyError on a required binding
    | LoggingSetup(reason: string)   // reading, evaluating or applying the log config failed
    | DelegateRaised(exception: string)
    | NoJournal                      // `report` while no journal is held
    | StringRaised                   // TypeError: a plain string was raised
    | NotSnapshotable(obj: ObjectId)

  datatype Result<+T> = Ok(value: T) | Err(error: Error)

  /** The runner the coordinator delegates to: the injected one, or a
      verbose text runner when none was injected. */
  datatype Delegate = TextTestRunner | Injected(id: nat)

  /** A caller-supplied hook that adds flags to the argument parser. */
  datatype ParserInit = ParserInit(id: nat)

  /** The parsed command-line namespace, opaque here. */
  datatype Options = Options(values: map<string, string>)

  /** One `TestRunner` object. */
  datatype Runner = Runner(
    delegate: Delegate,
    options: Option<Options>,
    bindings: Bindings,
    overrides: Bindings,
    parserInits: seq<ParserInit>,
    journal: Option<JournalId>)

  /** A shared scenario instance together with the bindings its class
      constructor was given. */
  datatype Instance = Instance(id: nat, klass: ClassId, bindings: Bindings)

  /** What the delegate runner reports back. */
  datatype TestResult = TestResult(failures: seq<TestId>, errors: seq<TestId>)

  datatype Event =
    | Constructed(klass: ClassId, instance: nat)
    | Prepared(runner: RunnerId)
    | JournalCreated(journal: JournalId, path: string)
    | DelegateRan(runner: RunnerId, suite: seq<TestId>)
    | EarlyTermination
    | CleanedUp(runner: RunnerId)
    | JournalTerminated(journal: JournalId)
    | JournalStored(journal: JournalId, obj: ObjectId)
    | ReportGeneration(path: string, succeeded: bool)

  datatype World = World(
    globalRunner: Option<RunnerId>,
    runners: map<RunnerId, Runner>,
    scenarios: map<ClassId, Instance>,
    globalJournal: Option<JournalId>,
    nextId: nat,
    trace: seq<Event>)

  /** A transition's successor state together with what the call returned
      or raised. */
  datatype Step<+T> = Step(world: World, out: Result<T>)

  /** Well-formedness kept by every transition: the global runner is a known
      runner, every identity in use was allocated, and each cache entry holds
      an instance of its own class, no two entries sharing one instance. */
  predicate Valid(w: World)
  {
    && (forall id :: id in w.runners ==> id < w.nextId)
    && (w.globalRunner.Some? ==> w.globalRunner.value in w.runners)
    && (forall id :: id in w.runners && w.runners[id].journal.Some? ==> w.runners[id].journal.value < w.nextId)
    && (w.globalJournal.Some? ==> w.globalJournal.value < w.nextId)
    && (forall k :: k in w.scenarios ==> w.scenarios[k].klass == k && w.scenarios[k].id < w.nextId)
    && (forall k, k' :: k in w.scenarios && k' in w.scenarios && k != k' ==> w.scenarios[k].id != w.scenarios[k'].id)
  }

  /** The process state before any runner exists: no global runner and an
      empty scenario cache. Another module may already have installed a
      global journal. */
  function Initial(preset: Option<JournalId>): (w: World)
    ensures Valid(w)
    ensures w.globalRunner == None && w.runners == map[] && w.scenarios == map[]
    ensures w.globalJournal == preset && w.trace == []
  {
    World(None, map[], map[], preset, if preset.Some? then preset.value + 1 else 0, [])
  }

  /** Python's `x or default` for an optional mapping. */
  function OrEmpty(m: Option<Bindings>): Bindings
  {
    if m.Some? then m.value else map[]
  }
}

=== FILE: suite.dfy ===
/** Building the aggregate suite from an ordered list of test-case classes.
    How the loader lists one class's tests is an input, `load`. */
module SuiteBuilder {
  import opened RunnerState

  /** The tests of each class, class after class, in list order; nothing is
      removed, merged or reordered. */
  function Flatten(classes: seq<ClassId>, load: ClassId -> seq<TestId>): seq<TestId>
  {
    if |classes| == 0 then []
    else Flatten(classes[..|classes| - 1], load) + load(classes[|classes| - 1])
  }

  /** `build_suite`: None or an empty list raises; anything else yields the
      flattened suite. */
  function BuildSuite(classes: Option<seq<ClassId>>, load: ClassId -> seq<TestId>): (r: Result<seq<TestId>>)
    ensures r.Err? <==> classes.None? || |classes.value| == 0
    ensures r.Err? ==> r.error == NoTestCases
    ensures r.Ok? ==> r.value == Flatten(classes.value, load)
  {
    if classes.None? || |classes.value| == 0 then Err(NoTestCases)
    else Ok(Flatten(classes.value, load))
  }

  /** `build_suite`'s own loop, adding each class's tests to the suite in turn,
      computes the same result as `BuildSuite`. */
  method BuildSuiteByLoop(classes: Option<seq<ClassId>>, load: ClassId -> seq<TestId>)
    returns (r: Result<seq<TestId>>)
    ensures r == BuildSuite(classes, load)
  {
    if classes.None? || |classes.value| == 0 {
      return Err(NoTestCases);
    }
    var list := classes.value;
    var suite: seq<TestId> := [];
    var i := 0;
    while i < |list|
      invariant 0 <= i <= |list|
      invariant suite == Flatten(list[..i], load)
    {
      assert list[..i + 1][..i] == list[..i];
      suite := suite + load(list[i]);
      i := i + 1;
    }
    assert list[..|list|] == list;
    return Ok(suite);
  }

  /** Flattening distributes over concatenation of class lists. */
  lemma {:induction false} FlattenAppend(a: seq<ClassId>, b: seq<ClassId>, load: ClassId -> seq<TestId>)
    ensures Flatten(a + b, load) == Flatten(a, load) + Flatten(b, load)
    decreases |b|
  {
    if |b| == 0 {
      assert a + b == a;
    } else {
      var front := b[..|b| - 1];
      assert (a + b)[..|a + b| - 1] == a + front;
      assert (a + b)[|a + b| - 1] == b[|b| - 1];
      FlattenAppend(a, front, load);
    }
  }

  /** Class `classes[i]` contributes one contiguous block, exactly its
      loaded tests, after every earlier class's block and before every later
      one's. */
  lemma {:induction false} FlattenBlock(classes: seq<ClassId>, i: nat, load: ClassId -> seq<TestId>)
    requires i < |classes|
    ensures Flatten(classes, load)
            == Flatten(classes[..i], load) + load(classes[i]) + Flatten(classes[i + 1..], load)
  {
    var before, here, after := classes[..i], [classes[i]], classes[i + 1..];
    assert classes == (before + here) + after;
    FlattenAppend(before + here, after, load);
    FlattenAppend(before, here, load);
    FlattenSingle(classes[i], load);
  }

  lemma FlattenSingle(c: ClassId, load: ClassId -> seq<TestId>)
    ensures Flatten([c], load) == load(c)
  {
    assert [c][..0] == [];
  }

  /** A test is in the suite exactly when some listed class loads it. */
  lemma {:induction false} FlattenMembers(classes: seq<ClassId>, load: ClassId -> seq<TestId>, t: TestId)
    ensures t in Flatten(classes, load) <==> exists i :: 0 <= i < |classes| && t in load(classes[i])
    decreases |classes|
  {
    if |classes| > 0 {
      var front := classes[..|classes| - 1];
      FlattenMembers(front, load, t);
      if t in Flatten(classes, load) {
        if t !in load(classes[|classes| - 1]) {
          var i :| 0 <= i < |front| && t in load(front[i]);
          assert classes[i] == front[i];
        }
      } else {
        forall i | 0 <= i < |classes|
          ensures t !in load(classes[i])
        {
          if i < |front| {
            assert classes[i] == front[i];
          }
        }
      }
    }
  }

  /** The suite's size is the sum of the classes' test counts, so a class
      listed twice contributes its tests twice. */
  function TestCount(classes: seq<ClassId>, load: ClassId -> seq<TestId>): nat
  {
    if |classes| == 0 then 0 else |load(classes[0])| + TestCount(classes[1..], load)
  }

  lemma {:induction false} FlattenLength(classes: seq<ClassId>, load: ClassId -> seq<TestId>)
    ensures |Flatten(classes, load)| == TestCount(classes, load)
    decreases |classes|
  {
    if |classes| > 0 {
      FlattenAppend([classes[0]], classes[1..], load);
      assert [classes[0]] + classes[1..] == classes;
      assert [classes[0]][..0] == [];
      FlattenLength(classes[1..], load);
    }
  }
}
